=== FILE: README.md ===
# LFU admission/eviction policy — a Dafny model

This project models `lfuPolicy`, the admission and eviction policy of the
ristretto in-memory cache (`default_policy.go`). The model is sequential.
Each operation is one atomic step over an immutable state. For `Add`,
`Has`, `Del`, `Update`, `Cost`, `Cap` and `Clear` that is the effect of the
policy's mutex. `Push`, `Close`, `MaxCost` and `UpdateMaxCost` take no lock
in the source, so their atomicity here is an assumption. In the source,
for example, an unlocked `UpdateMaxCost` can change the ceiling between two
`roomLeft` checks of `Add`'s loop. The state holds:

- the cost tracker `keyCosts`: a map from resident key to cost, the running
  `used` total and the mutable `maxCost` ceiling (module `Costs`);
- the eviction sample size (5 by default);
- the buffered queue of access batches waiting for the worker (capacity 3);
- the `isClosed` flag.

The heart of the model is `Policy.Add`. It follows the source's branches in
order:

1. It refuses an item costlier than the whole cache.
2. It treats a resident key as a cost update and reports it as not admitted.
3. It admits an absent key directly when `roomLeft(cost) >= 0`.
4. Otherwise it runs the sampled eviction loop, `Policy.Evict`. Each pass
   (`Policy.EvictionPass`) does three things:
   - tops the sample up with resident keys it does not hold yet
     (`Costs.FillSample`);
   - scans the sample left to right for the first minimum-estimate candidate
     (`Policy.ScanMin`);
   - either refuses the newcomer, returning the victims evicted so far, or
     deletes that candidate and swap-removes it from the sample
     (`Policy.SwapRemove`).

Two collaborators are abstract:

- The frequency estimator (`tinyLFU`) is a parameter `estimate: Key -> int`.
  `Add` requires every estimate to be below `MaxInt64`. The source goes
  wrong only when the newcomer's estimate is `MaxInt64` and no sampled
  estimate is below it. The refusal test then fails, so the source takes the
  default candidate: key 0 at index 0 with cost 0.
  - With an empty sample, the swap-remove indexes position -1 and panics.
  - Otherwise key 0 is deleted if it happens to be resident, a victim
    `{0, cost 0}` is recorded, and a resident sampled key is dropped from the
    sample without being evicted. The loop may then never end.
- Sampling draws resident keys in an arbitrary order (`:|` choice). Every
  property of `Add` therefore holds for every estimator and every sampling
  order.

The accounting invariant `used == SumCosts(keyCosts)` (`Costs.Valid`) is
not a precondition. Each operation instead promises to preserve it. Most
guarantees do not depend on it at all:

- The eviction loop terminates, because each evicting pass deletes a
  resident key.
- An admission always leaves `used <= maxCost`.
- Every victim was resident, recorded with its cost, is distinct from the
  other victims, is gone afterwards, and was estimated no higher than the
  newcomer.
- The choice is least-frequent. Each victim had the lowest estimate in some
  sample a pass could have examined. Such a sample holds at most `sampleSize`
  distinct keys that were still resident at that eviction, and it holds
  every resident key when it is shorter than `sampleSize`
  (`Policy.SampleOf`, `Policy.EvictedLeastFrequent`). A refusal of a new key
  that is not oversized is likewise backed by such a sample of the keys left,
  every one of them estimated above the newcomer
  (`Policy.OutrankedBySample`). So with at most `sampleSize` residents, the
  least frequent key is the one evicted, and a refusal never spares a key
  estimated at or below the newcomer.
- Eviction stops as soon as the item fits. Each victim was evicted while
  the item still did not fit, and a refusal leaves it not fitting.

Given the invariant, a refusal after sampling is also justified by a
still-resident key estimated strictly higher than the newcomer.

`Policy.Has`, `Policy.Cap` and `Policy.MaxCost` are plain reads of the
state. The tracker accessors `Costs.GetMaxCost` and `Costs.RoomLeft` are
plain reads too. Their meaning is stated by `Policy.HasTracksResidency`,
`Policy.CapIsRoom`, `Policy.MaxCostReadsBack` and
`Costs.RoomLeftIsFreeCapacity`.
`Policy.Cost` returns -1 for an absent key. It also returns -1 for a key
that is resident with cost -1, because the source never rejects negative
costs. `Policy.CostSentinel` therefore states "-1 exactly when absent" only
under non-negative costs.

## Model

| member | source | states |
|---|---|---|
| Policy.Add | default_policy.go:104-178 | An oversized item is refused with no victims and no state change. A resident key gets the new cost, `used` moves by exactly the delta, and the call reports not admitted. An absent key that fits is admitted with no victims. Otherwise every victim was resident with its recorded cost, is distinct, is gone afterwards and was estimated no higher than the newcomer. Each victim was the least-estimated key of a sample of the keys then resident, and that sample covers all of them when it is short. A refusal is backed by such a sample of the remaining keys, all estimated above the newcomer. Each victim was evicted while the item still did not fit, and a refusal leaves it not fitting. The new key is resident exactly when the call reports it admitted. An admission leaves `used <= maxCost`. Under the accounting invariant, a refusal is backed by a resident key estimated strictly higher, and the invariant is preserved. |
| Policy.Evict | default_policy.go:130-177 | The eviction loop terminates because the resident count strictly decreases. It returns distinct, formerly resident victims, and the tracker ends as the original minus the victims, plus the key if admitted. Each victim was least estimated in a sample of the keys then resident, and a refusal was decided on a sample of only higher estimates. `used` is refunded exactly the victims' costs. Every victim was evicted while the item did not fit, so eviction stops once it fits. A refusal leaves the item not fitting, and an admission is within capacity. A sample size of 0 never evicts. |
| Policy.EvictWhileFullStep | default_policy.go:140-142 | Evicting once more while the item still does not fit keeps the record that every victim went while the item did not fit. |
| Policy.EvictionPass | default_policy.go:142-172 | A pass examines the old sample topped up with unsampled residents. The sample holds at most `sampleSize` keys and covers every resident key when it is short. The pass refuses exactly when the incoming estimate is below every candidate's, and then the tracker is unchanged. Otherwise it deletes the first minimum-estimate candidate, at index `minId`, with its recorded cost and keeps the sample resident and duplicate-free. The sample carried into the next pass is the examined one unchanged after a refusal, and after an eviction the examined one with the pair at `minId` swap-removed, as at 164-166. |
| Policy.ScanMin | default_policy.go:146-153 | The chosen estimate is at most every sampled estimate. It belongs to the chosen index, and every earlier index is strictly higher, so the first minimum wins ties. When nothing is below `MaxInt64` the zero defaults come back. |
| Policy.ChosenStep | default_policy.go:143-172 | Appending a victim that was least estimated in a sample of the keys still resident extends the record that every victim was chosen that way. |
| Policy.SwapRemove | default_policy.go:164-166 | Swap-with-last-and-pop removes exactly the chosen pair, as a multiset, and shortens the sample by one. |
| Policy.SwapRemoveKeepsSample | default_policy.go:161-166 | After the victim is deleted, the swap-removed sample still has distinct keys, all resident with their current costs. |
| Policy.EvictStep | default_policy.go:161-172 | One eviction keeps the loop bookkeeping: the tracker is the original minus all victims, `used` is refunded their costs, and the victims stay distinct and originally resident. |
| Policy.RefusalWitness | default_policy.go:155-159 | Under the accounting invariant and a positive sample size, a refusing pass saw at least one resident key, so some resident key outranks the newcomer. |
| Costs.FillSample | default_policy.go:143-144 | The old sample is kept as a prefix. The result has distinct keys, all resident with their costs, and never exceeds the target. It is short only when every resident key is already sampled. |
| Costs.UpdateIfHas | default_policy.go:113-117 | It reports presence exactly. A resident key takes the new cost and `used` moves by the delta. An absent key changes nothing, the key set never changes, and the accounting invariant is preserved. |
| Costs.Add | default_policy.go:121-128 | A fresh key becomes resident with its cost and nothing else changes. `used` grows by the cost and the invariant is preserved. |
| Costs.Del | default_policy.go:161-162 | The key is gone and the other entries are untouched. A resident key's cost is refunded. An absent key is a no-op and the invariant is preserved. |
| Costs.SumCostsRemove | default_policy.go:161-162 | Removing any entry takes exactly its cost off the total, whichever entry the sum happened to visit first. |
| Costs.UpdateMaxCost | default_policy.go:243-248 | Only the ceiling changes. Residents and `used` are untouched, so lowering it evicts nothing. |
| Costs.Clear | default_policy.go:216-222 | The tracker is emptied, `used` is reset to 0, the ceiling is kept and the invariant holds. |
| Costs.Empty | default_policy.go:46-53 | A new tracker has nothing resident and satisfies the invariant. |
| Costs.RoomLeftIsFreeCapacity | default_policy.go:121-122 | Under the invariant, the room left is the ceiling less all resident costs and the item's cost. It is non-negative exactly when admitting the item keeps the sum of costs within the ceiling. |
| Policy.NewPolicyWithSampleSize | default_policy.go:46-57 | A new policy is open with an empty queue, nothing resident and the invariant holding. Its remaining capacity is the ceiling. |
| Policy.NewPolicy | default_policy.go:42-44 | The default constructor uses sample size 5. |
| Policy.Push | default_policy.go:82-99 | A closed policy refuses every batch and an empty batch succeeds without effect. Otherwise a batch is accepted exactly when the queue has room, and is then appended at the back. A dropped batch changes nothing and the queue never exceeds 3. |
| Policy.PushAll | default_policy.go:82-99 | Pushing several batches yields one outcome per batch and leaves the cost state and the flag alone. |
| Policy.PushBurst | default_policy.go:50 | With the worker paused, a burst of non-empty batches is accepted for exactly the first `3 - queued` batches and dropped after that. |
| Policy.Close | default_policy.go:224-234 | Afterwards the policy is closed, and the cost state, the queue and the sample size are unchanged. |
| Policy.CloseIsIdempotent | default_policy.go:224-227 | A second close is a no-op, and a closed policy refuses every pushed batch. |
| Policy.Del | default_policy.go:187-191 | The key is no longer resident and every other key's residency is unchanged. The capacity freed is its cost, and only the cost state changes: the ceiling, sample size, queue and flag are kept. An absent key leaves the state unchanged, and the invariant is preserved. |
| Policy.CapIsRoom | default_policy.go:193-198 | Under the invariant, `Cap` is the ceiling minus the sum of resident costs, including after a deletion and after a direct admission. |
| Policy.HasTracksResidency | default_policy.go:180-185 | `Has` is false for a deleted key and for every key after `Clear`. Changing a cost or the ceiling never changes it. |
| Policy.MaxCostReadsBack | default_policy.go:236-241 | `MaxCost` returns the ceiling last set by `UpdateMaxCost`. `Del`, `Update`, `Clear` and `Close` leave it unchanged. |
| Policy.Update | default_policy.go:200-204 | The set of resident keys never changes, so an absent key stays absent. A resident key takes the new cost with capacity moved by the delta, and other costs are untouched. The ceiling, sample size, queue and flag are kept, and the invariant is preserved. |
| Policy.Cost | default_policy.go:206-214 | An absent key yields -1 and a resident key yields its stored cost. |
| Policy.CostSentinel | default_policy.go:206-214 | With non-negative costs, the -1 sentinel means exactly "not resident". |
| Policy.Clear | default_policy.go:216-222 | Nothing is resident afterwards and the remaining capacity is the whole ceiling. The ceiling, the sample size, the queue and the flag are kept. |
| Policy.UpdateMaxCost | default_policy.go:243-248 | The ceiling becomes the new value and residents are untouched. Remaining capacity shifts by exactly the change of ceiling, and the sample size, queue and flag are kept. |
| Scenarios.EvictionScenario | default_policy.go:121-177 | With capacity 10, key 1 (cost 6) is admitted. Key 2 (cost 6), estimated at least as high, then evicts exactly `{key 1, cost 6}` and is admitted, leaving 6 in use. |
| Scenarios.RefusalScenario | default_policy.go:155-159 | With the same start, a key 2 estimated below key 1 is refused with no victims. Key 1 stays resident and 6 remains in use. |
| Scenarios.StopOnceFitsScenario | default_policy.go:140-177 | With capacity 10 and keys 1 and 3 resident at cost 2 each, all estimated equally, key 2 with cost 7 evicts exactly one of them and is admitted, leaving 9 in use. |
| Scenarios.LeastFrequentScenario | default_policy.go:143-177 | With capacity 12 and keys 1 and 3 resident at cost 6, estimated 0 and 1, key 2 with cost 6 and estimate 5 evicts exactly key 1, the less frequent one, and is admitted with 12 in use. |
| Scenarios.EvictThenRefuseScenario | default_policy.go:143-177 | With capacity 10, key 1 (cost 6, estimate 5) and key 3 (cost 3, estimate 0), key 2 with cost 6 and estimate 2 evicts exactly key 3 and is then refused. Key 1 stays, 6 is in use, and key 3 stays evicted. |
| Scenarios.OversizedScenario | default_policy.go:108-111 | With capacity 10, an item of cost 15 is refused with no victims and nothing used. |
| Scenarios.ReAddScenario | default_policy.go:113-117 | Re-adding a resident key is refused, yet its cost becomes the new one with `used` moved by the delta. `Update(1, 8)` on a key of cost 5 leaves 8 used and the key resident. |

## Left out

- The background worker `processItems`, the `stop` channel and the
  send-then-close shutdown sequence (default_policy.go:55, 69-80, 229-232).
  These are concurrency and channel lifecycle. Only the flag and the
  buffered queue's contents are kept, and the worker's draining of the queue
  is not modelled.
- The mutex around every operation, and the lack of one around `Push`,
  `Close`, `MaxCost` and `UpdateMaxCost`. Every operation is one atomic
  step, so interleavings of those unlocked operations with a locked one
  are not modelled.
- Metrics (`CollectMetrics`, `p.metrics.add`). They are an observability side
  channel with no effect on decisions.
- The frequency estimator's internals: counters, doorkeeper and aging. The
  estimator is a parameter, and `numCounters`, which only sizes it, is
  dropped from the constructors.
- The cost tracker's internals beyond the effects the policy relies on. Map
  iteration order is replaced by an arbitrary choice of sampled keys.
- Policy.Clear: does not model the reset of the frequency estimator, because
  the estimator is a parameter rather than part of the state.
- Policy.Add: costs, `used` and `maxCost` are unbounded integers, so a 64-bit
  wrap-around of `used + cost` is not modelled. The model also requires all
  estimates to be below `MaxInt64`, which the real estimator's small
  saturating counters guarantee. The source's panic or endless loop when
  the newcomer is estimated at `MaxInt64` is therefore not modelled.
- Policy.Add: the sample size is a `nat`. A negative sample size makes the
  source panic at default_policy.go:136 (`make` with capacity below length 0)
  on the first `Add` that reaches the eviction loop. That panic is not
  modelled.
- Policy.NewPolicyWithSampleSize: the sample size is a `nat`, so the
  constructor cannot be given the negative size that the source accepts
  (default_policy.go:46-57) and only trips over later, in `Add`.
- The unlocked `nil` receiver guards of `MaxCost` and `UpdateMaxCost`
  (default_policy.go:237-239, 244-246). A policy value always exists here.

=== FILE: costs.dfy ===
/**
  The cost tracker the LFU policy delegates to (`keyCosts`): an exact map
  from resident key to cost, the running total of those costs and a
  mutable ceiling. Only the effects the policy's call sites rely on are
  modelled; candidate sampling draws from the residents nondeterministically,
  so everything proved about its callers holds for every sampling order.
 */
module Costs {
  import opened Types

  datatype KeyCosts = KeyCosts(keyCosts: map<Key, int>, used: int, maxCost: int)

  /** Some resident key of a non-empty map; the same one every time. */
  ghost function Pick(m: map<Key, int>): (k: Key)
    requires m != map[]
    ensures k in m
  {
    var k :| k in m; k
  }

  /** Sum of the costs of all entries of `m`. */
  ghost function SumCosts(m: map<Key, int>): int
    decreases |m|
  {
    if m == map[] then 0
    else
      var k := Pick(m);
      assert (m - {k}).Keys == m.Keys - {k};
      m[k] + SumCosts(m - {k})
  }

  /** The accounting invariant: `used` is the exact sum of resident costs. */
  ghost predicate Valid(c: KeyCosts)
  {
    c.used == SumCosts(c.keyCosts)
  }

  /** Removing any entry takes exactly its cost off the sum. */
  lemma {:induction false} SumCostsRemove(m: map<Key, int>, k: Key)
    requires k in m
    ensures SumCosts(m) == m[k] + SumCosts(m - {k})
    decreases |m|
  {
    var j := Pick(m);
    assert (m - {j}).Keys == m.Keys - {j};
    if j != k {
      assert (m - {k}).Keys == m.Keys - {k};
      SumCostsRemove(m - {j}, k);
      SumCostsRemove(m - {k}, j);
      assert m - {j} - {k} == m - {k} - {j};
    }
  }

  /** Inserting a fresh key adds exactly its cost to the sum. */
  lemma SumCostsInsert(m: map<Key, int>, k: Key, cost: int)
    requires k !in m
    ensures SumCosts(m[k := cost]) == SumCosts(m) + cost
  {
    SumCostsRemove(m[k := cost], k);
    assert m[k := cost] - {k} == m;
  }

  /** Overwriting a resident key's cost changes the sum by exactly the delta. */
  lemma SumCostsReplace(m: map<Key, int>, k: Key, cost: int)
    requires k in m
    ensures SumCosts(m[k := cost]) == SumCosts(m) - m[k] + cost
  {
    SumCostsRemove(m[k := cost], k);
    SumCostsRemove(m, k);
    assert m[k := cost] - {k} == m - {k};
  }

  /** A tracker with nothing resident has used no capacity. */
  lemma EmptyHasNoCost(c: KeyCosts)
    requires Valid(c) && c.keyCosts == map[]
    ensures c.used == 0
  {
  }

  /** A tracker with capacity `maxCost` and nothing resident. */
  function Empty(maxCost: int): (c: KeyCosts)
    ensures Valid(c) && c.keyCosts == map[] && c.maxCost == maxCost
  {
    KeyCosts(map[], 0, maxCost)
  }

  /** The configured ceiling. */
  function GetMaxCost(c: KeyCosts): int
  {
    c.maxCost
  }

  /**
    Changes the ceiling and nothing else: lowering it below `used` evicts
    nothing, it only changes the outcome of later room checks.
   */
  function UpdateMaxCost(c: KeyCosts, maxCost: int): (r: KeyCosts)
    ensures r.keyCosts == c.keyCosts && r.used == c.used && r.maxCost == maxCost
    ensures Valid(c) ==> Valid(r)
  {
    c.(maxCost := maxCost)
  }

  /**
    If `key` is resident, replaces its cost and adjusts `used` by the delta;
    the boolean reports whether the key was resident. An absent key is left
    absent and nothing changes.
   */
  function UpdateIfHas(c: KeyCosts, key: Key, cost: int): (r: (KeyCosts, bool))
    ensures r.1 <==> key in c.keyCosts
    ensures r.1 ==> r.0 == KeyCosts(c.keyCosts[key := cost], c.used + cost - c.keyCosts[key], c.maxCost)
    ensures !r.1 ==> r.0 == c
    ensures r.0.keyCosts.Keys == c.keyCosts.Keys
    ensures Valid(c) ==> Valid(r.0)
  {
    if key in c.keyCosts then
      SumCostsReplace(c.keyCosts, key, cost);
      (c.(keyCosts := c.keyCosts[key := cost], used := c.used + cost - c.keyCosts[key]), true)
    else
      (c, false)
  }

  /** Room that would remain after admitting `cost`; negative when it does not fit. */
  function RoomLeft(c: KeyCosts, cost: int): int
  {
    c.maxCost - (c.used + cost)
  }

  /**
    Under the accounting invariant, the room left for `cost` is the ceiling
    less every resident cost and `cost`: it is non-negative exactly when
    admitting the item keeps the sum of costs within the ceiling.
   */
  lemma RoomLeftIsFreeCapacity(c: KeyCosts, key: Key, cost: int)
    requires Valid(c) && key !in c.keyCosts
    ensures RoomLeft(c, cost) == c.maxCost - SumCosts(c.keyCosts) - cost
    ensures RoomLeft(c, cost) >= 0 <==> SumCosts(c.keyCosts[key := cost]) <= GetMaxCost(c)
  {
    SumCostsInsert(c.keyCosts, key, cost);
  }

  /** Makes a fresh key resident with `cost` and charges it to `used`. */
  function Add(c: KeyCosts, key: Key, cost: int): (r: KeyCosts)
    requires key !in c.keyCosts
    ensures key in r.keyCosts && r.keyCosts[key] == cost
    ensures r.keyCosts - {key} == c.keyCosts
    ensures r.used == c.used + cost && r.maxCost == c.maxCost
    ensures Valid(c) ==> Valid(r)
  {
    SumCostsInsert(c.keyCosts, key, cost);
    assert c.keyCosts[key := cost] - {key} == c.keyCosts;
    c.(keyCosts := c.keyCosts[key := cost], used := c.used + cost)
  }

  /** Removes `key` if resident, refunding its cost; an absent key is a no-op. */
  function Del(c: KeyCosts, key: Key): (r: KeyCosts)
    ensures key !in r.keyCosts
    ensures r.keyCosts == c.keyCosts - {key} && r.maxCost == c.maxCost
    ensures key in c.keyCosts ==> r.used == c.used - c.keyCosts[key]
    ensures key !in c.keyCosts ==> r == c
    ensures Valid(c) ==> Valid(r)
  {
    if key in c.keyCosts then
      SumCostsRemove(c.keyCosts, key);
      c.(keyCosts := c.keyCosts - {key}, used := c.used - c.keyCosts[key])
    else
      assert c.keyCosts - {key} == c.keyCosts;
      c
  }

  /** Forgets every resident key and resets `used`; the ceiling is kept. */
  function Clear(c: KeyCosts): (r: KeyCosts)
    ensures r.keyCosts == map[] && r.used == 0 && r.maxCost == c.maxCost
    ensures Valid(r)
  {
    Empty(c.maxCost)
  }

  /**
    Tops the sample up to `target` pairs with resident keys it does not hold
    yet, in an arbitrary order. The old sample is kept as a prefix; the
    result is short of `target` only when every resident key is already in it.
   */
  method FillSample(c: KeyCosts, sample: seq<Pair>, target: int) returns (r: seq<Pair>)
    requires DistinctKeys(sample) && Resident(sample, c.keyCosts)
    ensures sample <= r
    ensures DistinctKeys(r) && Resident(r, c.keyCosts)
    ensures |sample| >= target ==> r == sample
    ensures |sample| < target ==> |r| <= target
    ensures |r| < target ==> c.keyCosts.Keys <= SampleKeys(r)
  {
    r := sample;
    if |r| >= target {
      return;
    }
    var rest := c.keyCosts.Keys - SampleKeys(r);
    while |r| < target && rest != {}
      invariant sample <= r && |r| <= target
      invariant DistinctKeys(r) && Resident(r, c.keyCosts)
      invariant rest == c.keyCosts.Keys - SampleKeys(r)
      decreases |rest|
    {
      var k :| k in rest;
      AppendFresh(r, Pair(k, c.keyCosts[k]), c.keyCosts);
      r := r + [Pair(k, c.keyCosts[k])];
      rest := rest - {k};
    }
  }
}

=== FILE: policy.dfy ===
/**
  The LFU admission/eviction policy (`lfuPolicy`) as a sequential state
  machine. Every operation is one atomic step over an immutable state. The
  frequency estimator is a parameter `estimate` (a key's approximate hit
  count) and candidate sampling is the nondeterministic `Costs.FillSample`,
  so the contracts of `Add` hold for every estimator and every sampling order.
 */
module Policy {
  import opened Types
  import Costs

  /** Default number of eviction candidates kept in the sample. */
  const LfuSampleSize: nat := 5

  /** Capacity of the buffered queue of access batches awaiting the worker. */
  const QueueCapacity: nat := 3

  /** An evicted entry the caller must also remove from storage; `conflict` is always 0 here. */
  datatype Victim = Victim(key: Key, conflict: Key, cost: int)

  /**
    Policy state: the cost tracker, the sample size, the access batches
    waiting in the worker's queue, and whether the policy has been closed.
   */
  datatype LfuPolicy = LfuPolicy(
    costs: Costs.KeyCosts,
    sampleSize: nat,
    queue: seq<seq<Key>>,
    isClosed: bool)

  /** The keys of a victim list. */
  function VictimKeys(vs: seq<Victim>): set<Key>
  {
    set i | 0 <= i < |vs| :: vs[i].key
  }

  /** Total cost of a victim list. */
  function VictimCost(vs: seq<Victim>): int
  {
    if |vs| == 0 then 0 else VictimCost(vs[..|vs| - 1]) + vs[|vs| - 1].cost
  }

  /** Appending a victim adds its key and its cost. */
  lemma AppendVictim(vs: seq<Victim>, v: Victim)
    ensures VictimKeys(vs + [v]) == VictimKeys(vs) + {v.key}
    ensures VictimCost(vs + [v]) == VictimCost(vs) + v.cost
  {
    var t := vs + [v];
    assert t[..|vs|] == vs;
    assert t[|vs|] == v;
    forall i | 0 <= i < |vs| ensures t[i] == vs[i] {}
  }

  /** The cost of a one-victim prefix is that victim's cost. */
  lemma FirstVictimCost(vs: seq<Victim>)
    ensures |vs| >= 1 ==> VictimCost(vs[..1]) == vs[0].cost
  {
  }

  /** No key is evicted twice. */
  predicate DistinctVictims(vs: seq<Victim>)
  {
    forall i, j :: 0 <= i < j < |vs| ==> vs[i].key != vs[j].key
  }

  /** A fresh policy with the given capacity and sample size. */
  function NewPolicyWithSampleSize(maxCost: int, sampleSize: nat): (p: LfuPolicy)
    ensures Costs.Valid(p.costs) && p.costs.keyCosts == map[]
    ensures Cap(p) == maxCost && MaxCost(p) == maxCost
    ensures p.sampleSize == sampleSize && !p.isClosed && p.queue == []
  {
    LfuPolicy(Costs.Empty(maxCost), sampleSize, [], false)
  }

  /** A fresh policy with the default sample size. */
  function NewPolicy(maxCost: int): (p: LfuPolicy)
    ensures Costs.Valid(p.costs) && p.costs.keyCosts == map[]
    ensures p.sampleSize == LfuSampleSize && MaxCost(p) == maxCost
  {
    NewPolicyWithSampleSize(maxCost, LfuSampleSize)
  }

  /**
    Offers a batch of accessed keys to the worker without blocking. A closed
    policy refuses every batch, an empty batch is accepted without effect,
    and otherwise the batch is enqueued when the queue has room and dropped
    when it is full.
   */
  function Push(p: LfuPolicy, keys: seq<Key>): (r: (LfuPolicy, bool))
    ensures p.isClosed ==> r == (p, false)
    ensures !p.isClosed && keys == [] ==> r == (p, true)
    ensures !p.isClosed && keys != [] ==> (r.1 <==> |p.queue| < QueueCapacity)
    ensures r.1 && keys != [] ==> r.0 == p.(queue := p.queue + [keys])
    ensures !r.1 ==> r.0 == p
    ensures |p.queue| <= QueueCapacity ==> |r.0.queue| <= QueueCapacity
  {
    if p.isClosed then (p, false)
    else if |keys| == 0 then (p, true)
    else if |p.queue| < QueueCapacity then (p.(queue := p.queue + [keys]), true)
    else (p, false)
  }

  /** Pushes the batches one after another, collecting each push's outcome. */
  function PushAll(p: LfuPolicy, batches: seq<seq<Key>>): (r: (LfuPolicy, seq<bool>))
    ensures |r.1| == |batches|
    ensures r.0.costs == p.costs && r.0.isClosed == p.isClosed
    ensures p.queue <= r.0.queue
    decreases |batches|
  {
    if |batches| == 0 then (p, [])
    else
      var (p1, ok) := Push(p, batches[0]);
      var (p2, oks) := PushAll(p1, batches[1..]);
      (p2, [ok] + oks)
  }

  /**
    With the worker not draining, a burst of non-empty batches into an open
    policy is accepted exactly for the first `QueueCapacity - |queue|`
    batches and dropped afterwards.
   */
  lemma {:induction false} PushBurst(p: LfuPolicy, batches: seq<seq<Key>>)
    requires !p.isClosed && |p.queue| <= QueueCapacity
    requires forall i :: 0 <= i < |batches| ==> batches[i] != []
    ensures forall i :: 0 <= i < |batches| ==>
      (PushAll(p, batches).1[i] <==> i < QueueCapacity - |p.queue|)
    decreases |batches|
  {
    if |batches| > 0 {
      var (p1, ok) := Push(p, batches[0]);
      PushBurst(p1, batches[1..]);
      var oks := PushAll(p1, batches[1..]).1;
      assert PushAll(p, batches).1 == [ok] + oks;
      forall i | 0 <= i < |batches|
        ensures PushAll(p, batches).1[i] <==> i < QueueCapacity - |p.queue|
      {
        if i > 0 {
          assert batches[1..][i - 1] == batches[i];
          assert PushAll(p, batches).1[i] == oks[i - 1];
        }
      }
    }
  }

  /** Marks the policy closed; only the flag changes. */
  function Close(p: LfuPolicy): (r: LfuPolicy)
    ensures r.isClosed
    ensures r.costs == p.costs && r.queue == p.queue && r.sampleSize == p.sampleSize
  {
    if p.isClosed then p else p.(isClosed := true)
  }

  /** A second close is a no-op, and a closed policy refuses every batch. */
  lemma CloseIsIdempotent(p: LfuPolicy, keys: seq<Key>)
    ensures Close(Close(p)) == Close(p)
    ensures Push(Close(p), keys) == (Close(p), false)
  {
  }

  /** Whether `key` is resident. */
  function Has(p: LfuPolicy, key: Key): bool
  {
    key in p.costs.keyCosts
  }

  /** Removes `key` if resident; every other key's residency is unchanged. */
  function Del(p: LfuPolicy, key: Key): (r: LfuPolicy)
    ensures r == p.(costs := r.costs) && MaxCost(r) == MaxCost(p)
    ensures !Has(r, key)
    ensures forall k :: k != key ==> (Has(r, k) <==> Has(p, k))
    ensures r.costs.keyCosts == p.costs.keyCosts - {key}
    ensures Has(p, key) ==> Cap(r) == Cap(p) + p.costs.keyCosts[key]
    ensures !Has(p, key) ==> r == p
    ensures Costs.Valid(p.costs) ==> Costs.Valid(r.costs)
  {
    p.(costs := Costs.Del(p.costs, key))
  }

  /** Remaining room: the ceiling minus the cost in use (negative when over capacity). */
  function Cap(p: LfuPolicy): int
  {
    p.costs.maxCost - p.costs.used
  }

  /**
    Under the accounting invariant, `Cap` is the ceiling minus the sum of
    resident costs, so it grows by a key's cost when that key is deleted
    and shrinks by exactly `cost` when a fresh item is admitted directly.
   */
  lemma CapIsRoom(p: LfuPolicy, key: Key, cost: int)
    requires Costs.Valid(p.costs)
    ensures Cap(p) == MaxCost(p) - Costs.SumCosts(p.costs.keyCosts)
    ensures Has(p, key) ==> Cap(Del(p, key)) == MaxCost(p) - Costs.SumCosts(p.costs.keyCosts - {key})
    ensures !Has(p, key) ==>
      Cap(p.(costs := Costs.Add(p.costs, key, cost))) == MaxCost(p) - Costs.SumCosts(p.costs.keyCosts[key := cost])
  {
  }

  /**
    `Has` answers residency as the other operations maintain it: a deleted
    key and every key after `Clear` are absent, and changing a cost or the
    ceiling never changes residency.
   */
  lemma HasTracksResidency(p: LfuPolicy, key: Key, k: Key, cost: int, maxCost: int)
    ensures !Has(Del(p, key), key) && !Has(Clear(p), k)
    ensures Has(Update(p, key, cost), k) == Has(p, k)
    ensures Has(UpdateMaxCost(p, maxCost), k) == Has(p, k)
  {
  }

  /**
    `MaxCost` reads back the ceiling `UpdateMaxCost` last set; deleting,
    updating, clearing and closing never change it.
   */
  lemma MaxCostReadsBack(p: LfuPolicy, key: Key, cost: int, maxCost: int)
    ensures MaxCost(UpdateMaxCost(p, maxCost)) == maxCost
    ensures MaxCost(Del(p, key)) == MaxCost(p) && MaxCost(Update(p, key, cost)) == MaxCost(p)
    ensures MaxCost(Clear(p)) == MaxCost(p) && MaxCost(Close(p)) == MaxCost(p)
  {
  }

  /**
    Changes the cost of a resident key, adjusting the cost in use by the
    delta; an absent key stays absent. No eviction happens even if the
    new cost overshoots the ceiling.
   */
  function Update(p: LfuPolicy, key: Key, cost: int): (r: LfuPolicy)
    ensures r == p.(costs := r.costs) && MaxCost(r) == MaxCost(p)
    ensures r.costs.keyCosts.Keys == p.costs.keyCosts.Keys
    ensures Has(p, key) ==> r.costs.keyCosts[key] == cost && Cap(r) == Cap(p) + p.costs.keyCosts[key] - cost
    ensures forall k :: k != key && Has(p, k) ==> r.costs.keyCosts[k] == p.costs.keyCosts[k]
    ensures !Has(p, key) ==> r == p
    ensures Costs.Valid(p.costs) ==> Costs.Valid(r.costs)
  {
    p.(costs := Costs.UpdateIfHas(p.costs, key, cost).0)
  }

  /** The cost of `key`, or -1 when it is not resident. */
  function Cost(p: LfuPolicy, key: Key): (r: int)
    ensures !Has(p, key) ==> r == -1
    ensures Has(p, key) ==> r == p.costs.keyCosts[key]
  {
    if key in p.costs.keyCosts then p.costs.keyCosts[key] else -1
  }

  /**
    The -1 sentinel means "absent" exactly, provided no resident cost is
    negative; a resident key stored with cost -1 is indistinguishable.
   */
  lemma CostSentinel(p: LfuPolicy, key: Key)
    requires forall k :: k in p.costs.keyCosts ==> p.costs.keyCosts[k] >= 0
    ensures Cost(p, key) == -1 <==> !Has(p, key)
  {
  }

  /** Forgets every resident key; the ceiling and the sample size are kept. */
  function Clear(p: LfuPolicy): (r: LfuPolicy)
    ensures r == p.(costs := r.costs)
    ensures forall k :: !Has(r, k)
    ensures Cap(r) == MaxCost(p) && MaxCost(r) == MaxCost(p)
    ensures Costs.Valid(r.costs)
    ensures r.sampleSize == p.sampleSize && r.isClosed == p.isClosed
  {
    p.(costs := Costs.Clear(p.costs))
  }

  /** The configured ceiling. */
  function MaxCost(p: LfuPolicy): int
  {
    Costs.GetMaxCost(p.costs)
  }

  /** Replaces the ceiling; never evicts, so residency and costs are untouched. */
  function UpdateMaxCost(p: LfuPolicy, maxCost: int): (r: LfuPolicy)
    ensures r == p.(costs := r.costs)
    ensures MaxCost(r) == maxCost
    ensures r.costs.keyCosts == p.costs.keyCosts
    ensures Cap(r) == Cap(p) + maxCost - MaxCost(p)
    ensures Costs.Valid(p.costs) ==> Costs.Valid(r.costs)
  {
    p.(costs := Costs.UpdateMaxCost(p.costs, maxCost))
  }

  /**
    Scans the sample left to right for the smallest estimate. Starting from
    `MaxInt64`, only a strictly smaller estimate replaces the current
    minimum, so the first of several equal minima wins; when no sampled
    estimate is below `MaxInt64` (an empty sample, say) nothing is chosen
    and the zero defaults are returned.
   */
  method ScanMin(sample: seq<Pair>, estimate: Key -> int)
    returns (minKey: Key, minHits: int, minId: int, minCost: int)
    ensures minHits <= MaxInt64
    ensures forall i :: 0 <= i < |sample| ==> minHits <= estimate(sample[i].key)
    ensures minHits < MaxInt64 ==>
      && 0 <= minId < |sample|
      && sample[minId] == Pair(minKey, minCost)
      && estimate(minKey) == minHits
      && forall i :: 0 <= i < minId ==> minHits < estimate(sample[i].key)
    ensures minHits == MaxInt64 ==> minKey == 0 && minId == 0 && minCost == 0
  {
    minKey, minHits, minId, minCost := 0, MaxInt64, 0, 0;
    var i := 0;
    while i < |sample|
      invariant 0 <= i <= |sample|
      invariant minHits <= MaxInt64
      invariant forall j :: 0 <= j < i ==> minHits <= estimate(sample[j].key)
      invariant minHits < MaxInt64 ==>
        && 0 <= minId < i
        && sample[minId] == Pair(minKey, minCost)
        && estimate(minKey) == minHits
        && forall j :: 0 <= j < minId ==> minHits < estimate(sample[j].key)
      invariant minHits == MaxInt64 ==> minKey == 0 && minId == 0 && minCost == 0
    {
      var hits := estimate(sample[i].key);
      if hits < minHits {
        minKey, minHits, minId, minCost := sample[i].key, hits, i, sample[i].cost;
      }
      i := i + 1;
    }
  }

  /** Removes position `i` by moving the last pair into it and dropping the last slot. */
  function SwapRemove(s: seq<Pair>, i: int): (r: seq<Pair>)
    requires 0 <= i < |s|
    ensures |r| == |s| - 1
    ensures multiset(r) + multiset{s[i]} == multiset(s)
  {
    var last := |s| - 1;
    if i == last then
      assert s == s[..last] + [s[last]];
      s[..last]
    else
      assert s == s[..i] + [s[i]] + s[i + 1..last] + [s[last]];
      assert s[i := s[last]][..last] == s[..i] + [s[last]] + s[i + 1..last];
      s[i := s[last]][..last]
  }

  /**
    Swap-removing the pair of an evicted key leaves a sample of distinct
    keys all still resident once that key is deleted.
   */
  lemma SwapRemoveKeepsSample(s: seq<Pair>, i: int, m: map<Key, int>)
    requires 0 <= i < |s|
    requires DistinctKeys(s) && Resident(s, m)
    ensures DistinctKeys(SwapRemove(s, i)) && Resident(SwapRemove(s, i), m - {s[i].key})
  {
  }

  /**
    One pass of the eviction loop: tops the sample up to `sampleSize`, finds
    its first minimum-estimate candidate, and either refuses the incoming
    item (its estimate `incHits` is below every sampled estimate) or evicts
    that candidate from the tracker and swap-removes it from the sample.
   */
  method EvictionPass(c: Costs.KeyCosts, sample: seq<Pair>, sampleSize: int, incHits: int, estimate: Key -> int)
    returns (c': Costs.KeyCosts, filled: seq<Pair>, sample': seq<Pair>, evicted: bool, victim: Victim, minId: int)
    requires forall k: Key :: estimate(k) < MaxInt64
    requires incHits < MaxInt64
    requires DistinctKeys(sample) && Resident(sample, c.keyCosts) && |sample| <= sampleSize
    // The candidates examined are the old sample topped up with unsampled residents.
    ensures sample <= filled && DistinctKeys(filled) && Resident(filled, c.keyCosts)
    ensures |sample| >= sampleSize ==> filled == sample
    ensures |filled| < sampleSize ==> c.keyCosts.Keys <= SampleKeys(filled)
    ensures SampleOf(filled, c.keyCosts, sampleSize) && |sample'| <= sampleSize
    // The pass refuses exactly when the incoming estimate is below every candidate's.
    ensures !evicted <==> forall i :: 0 <= i < |filled| ==> incHits < estimate(filled[i].key)
    // A refusal leaves the tracker alone and hands back the sample as examined.
    ensures !evicted ==> c' == c && sample' == filled
    // Otherwise the victim is the candidate at `minId`, the first of minimum estimate, now deleted.
    ensures evicted ==>
      && 0 <= minId < |filled| && filled[minId] == Pair(victim.key, victim.cost)
      && (forall i :: 0 <= i < |filled| ==> estimate(victim.key) <= estimate(filled[i].key))
      && (forall i :: 0 <= i < minId ==> estimate(victim.key) < estimate(filled[i].key))
    ensures evicted ==>
      && victim.conflict == 0
      && victim.key in c.keyCosts && victim.cost == c.keyCosts[victim.key]
      && estimate(victim.key) <= incHits
      && c' == Costs.Del(c, victim.key)
    ensures DistinctKeys(sample') && Resident(sample', c'.keyCosts)
    // After an eviction the next pass starts from the examined sample with the
    // victim's pair swap-removed.
    ensures evicted ==> 0 <= minId < |filled| && sample' == SwapRemove(filled, minId)
    // In the terms of the eviction loop's contract.
    ensures evicted ==> ChosenFromSample(victim, c.keyCosts, sampleSize, estimate)
    ensures !evicted ==> OutrankedBySample(c.keyCosts, sampleSize, incHits, estimate)
  {
    filled := Costs.FillSample(c, sample, sampleSize);
    assert SampleOf(filled, c.keyCosts, sampleSize);
    var minKey, minHits, minCost;
    minKey, minHits, minId, minCost := ScanMin(filled, estimate);
    if incHits < minHits {
      assert forall i :: 0 <= i < |filled| ==> incHits < estimate(filled[i].key);
      return c, filled, filled, false, Victim(0, 0, 0), minId;
    }
    victim := Victim(minKey, 0, minCost);
    assert Pair(victim.key, victim.cost) in filled by {
      assert filled[minId] == Pair(minKey, minCost);
    }
    SwapRemoveKeepsSample(filled, minId, c.keyCosts);
    c' := Costs.Del(c, minKey);
    sample' := SwapRemove(filled, minId);
    evicted := true;
  }

  /**
    Every victim was resident in `m` with the cost it records, carries no
    conflict hash, was estimated at most `bound`, and none is listed twice.
   */
  predicate EvictedFrom(vs: seq<Victim>, m: map<Key, int>, bound: int, estimate: Key -> int)
  {
    && DistinctVictims(vs)
    && forall i :: 0 <= i < |vs| ==>
      && vs[i].key in m
      && vs[i].cost == m[vs[i].key]
      && vs[i].conflict == 0
      && estimate(vs[i].key) <= bound
  }

  /**
    Each victim was evicted while the item still did not fit: before the
    j-th eviction the cost in use, less the costs of the earlier victims,
    plus the item's cost exceeded the ceiling.
   */
  predicate EvictedWhileFull(vs: seq<Victim>, used: int, maxCost: int, cost: int)
  {
    forall j :: 0 <= j < |vs| ==> used - VictimCost(vs[..j]) + cost > maxCost
  }

  /** Evicting once more while the item still does not fit keeps `EvictedWhileFull`. */
  lemma {:induction false} EvictWhileFullStep(vs: seq<Victim>, v: Victim, used: int, maxCost: int, cost: int)
    requires EvictedWhileFull(vs, used, maxCost, cost)
    requires used - VictimCost(vs) + cost > maxCost
    ensures EvictedWhileFull(vs + [v], used, maxCost, cost)
  {
    var t := vs + [v];
    forall j | 0 <= j < |t| ensures used - VictimCost(t[..j]) + cost > maxCost
    {
      if j < |vs| {
        assert t[..j] == vs[..j];
      } else {
        assert t[..j] == vs;
      }
    }
  }

  /**
    `s` is a sample a pass could examine over the residents `m`: at most
    `sampleSize` distinct resident keys with their current costs, covering
    every resident key when it is short of `sampleSize`.
   */
  ghost predicate SampleOf(s: seq<Pair>, m: map<Key, int>, sampleSize: int)
  {
    && |s| <= sampleSize
    && DistinctKeys(s) && Resident(s, m)
    && (|s| < sampleSize ==> m.Keys <= SampleKeys(s))
  }

  /** `v` is a least-estimated candidate of some sample a pass could examine over `m`. */
  ghost predicate ChosenFromSample(v: Victim, m: map<Key, int>, sampleSize: int, estimate: Key -> int)
  {
    exists s: seq<Pair> :: SampleOf(s, m, sampleSize) && Pair(v.key, v.cost) in s &&
      forall i :: 0 <= i < |s| ==> estimate(v.key) <= estimate(s[i].key)
  }

  /**
    The LFU choice: each victim was a least-estimated candidate of a sample
    drawn from the keys still resident when it was evicted.
   */
  ghost predicate EvictedLeastFrequent(vs: seq<Victim>, m: map<Key, int>, sampleSize: int, estimate: Key -> int)
  {
    forall j :: 0 <= j < |vs| ==> ChosenFromSample(vs[j], m - VictimKeys(vs[..j]), sampleSize, estimate)
  }

  /** Some sample a pass could examine over `m` holds only candidates estimated above `incHits`. */
  ghost predicate OutrankedBySample(m: map<Key, int>, sampleSize: int, incHits: int, estimate: Key -> int)
  {
    exists s: seq<Pair> :: SampleOf(s, m, sampleSize) && forall i :: 0 <= i < |s| ==> incHits < estimate(s[i].key)
  }

  /** A victim chosen as the minimum of a sample of the current residents extends `EvictedLeastFrequent`. */
  lemma {:induction false} ChosenStep(vs: seq<Victim>, v: Victim, m0: map<Key, int>, sampleSize: int, estimate: Key -> int)
    requires EvictedLeastFrequent(vs, m0, sampleSize, estimate)
    requires ChosenFromSample(v, m0 - VictimKeys(vs), sampleSize, estimate)
    ensures EvictedLeastFrequent(vs + [v], m0, sampleSize, estimate)
  {
    var t := vs + [v];
    forall j | 0 <= j < |t| ensures ChosenFromSample(t[j], m0 - VictimKeys(t[..j]), sampleSize, estimate)
    {
      if j < |vs| {
        assert t[..j] == vs[..j] && t[j] == vs[j];
      } else {
        assert t[..j] == vs && t[j] == v;
      }
    }
  }

  /**
    Evicting one more resident key keeps the loop's bookkeeping: the tracker
    is the original minus all victims, `used` is refunded their costs, and
    the victims stay distinct and originally resident.
   */
  lemma EvictStep(c0: Costs.KeyCosts, c: Costs.KeyCosts, vs: seq<Victim>, v: Victim, bound: int, estimate: Key -> int)
    requires c.keyCosts == c0.keyCosts - VictimKeys(vs) && c.used == c0.used - VictimCost(vs)
    requires EvictedFrom(vs, c0.keyCosts, bound, estimate)
    requires v.key in c.keyCosts && v.cost == c.keyCosts[v.key] && v.conflict == 0 && estimate(v.key) <= bound
    ensures Costs.Del(c, v.key).keyCosts == c0.keyCosts - VictimKeys(vs + [v])
    ensures Costs.Del(c, v.key).used == c0.used - VictimCost(vs + [v])
    ensures EvictedFrom(vs + [v], c0.keyCosts, bound, estimate)
  {
    AppendVictim(vs, v);
    var t := vs + [v];
    assert v.key !in VictimKeys(vs);
    forall i | 0 <= i < |vs| ensures t[i] == vs[i] && t[i].key != v.key {
      assert vs[i].key in VictimKeys(vs);
    }
    assert t[|vs|] == v;
  }

  /**
    Under the accounting invariant, a tracker that still lacks room holds
    some resident key, so a positive sample size yields a non-empty sample;
    a refusal therefore names a resident key estimated above the newcomer.
   */
  lemma RefusalWitness(c: Costs.KeyCosts, cost: int, sampleSize: int, filled: seq<Pair>, incHits: int, estimate: Key -> int)
    requires Costs.Valid(c) && cost <= c.maxCost && Costs.RoomLeft(c, cost) < 0 && sampleSize > 0
    requires Resident(filled, c.keyCosts)
    requires |filled| < sampleSize ==> c.keyCosts.Keys <= SampleKeys(filled)
    requires forall i :: 0 <= i < |filled| ==> incHits < estimate(filled[i].key)
    ensures exists k :: k in c.keyCosts && estimate(k) > incHits
  {
    if c.keyCosts == map[] {
      Costs.EmptyHasNoCost(c);
      assert false;
    }
    var k :| k in c.keyCosts;
    if |filled| < sampleSize {
      assert k in SampleKeys(filled);
    }
    assert filled != [];
    assert filled[0].key in c.keyCosts;
  }

  /**
    The eviction loop for an absent key that does not fit: while the item
    does not fit, run a pass; a refusing pass ends the loop with the victims
    evicted so far, and once the item fits it is admitted. Each evicting pass
    deletes one resident key, which bounds the number of passes.
   */
  method Evict(c0: Costs.KeyCosts, key: Key, cost: int, sampleSize: nat, estimate: Key -> int)
    returns (c: Costs.KeyCosts, victims: seq<Victim>, accepted: bool)
    requires forall k: Key :: estimate(k) < MaxInt64
    requires key !in c0.keyCosts && cost <= c0.maxCost
    ensures c.maxCost == c0.maxCost
    ensures EvictedFrom(victims, c0.keyCosts, estimate(key), estimate)
    ensures c.keyCosts ==
      if accepted then (c0.keyCosts - VictimKeys(victims))[key := cost]
      else c0.keyCosts - VictimKeys(victims)
    ensures c.used == c0.used - VictimCost(victims) + (if accepted then cost else 0)
    ensures accepted ==> c.used <= c.maxCost
    ensures EvictedWhileFull(victims, c0.used, c0.maxCost, cost)
    ensures !accepted ==> c.used + cost > c.maxCost
    ensures sampleSize == 0 && Costs.RoomLeft(c0, cost) < 0 ==> victims == [] && !accepted
    // Each victim was least estimated in its sample; a refusal saw only higher estimates.
    ensures EvictedLeastFrequent(victims, c0.keyCosts, sampleSize, estimate)
    ensures !accepted ==> OutrankedBySample(c.keyCosts, sampleSize, estimate(key), estimate)
    ensures Costs.Valid(c0) && sampleSize > 0 && !accepted ==>
      exists k :: k in c.keyCosts && estimate(k) > estimate(key)
    ensures Costs.Valid(c0) ==> Costs.Valid(c)
  {
    c := c0;
    var room := Costs.RoomLeft(c, cost);
    var incHits := estimate(key);
    var sample: seq<Pair> := [];
    victims := [];
    while room < 0
      invariant c.maxCost == c0.maxCost && cost <= c.maxCost
      invariant key !in c.keyCosts
      invariant c.keyCosts == c0.keyCosts - VictimKeys(victims)
      invariant c.used == c0.used - VictimCost(victims)
      invariant Costs.Valid(c0) ==> Costs.Valid(c)
      invariant EvictedFrom(victims, c0.keyCosts, incHits, estimate)
      invariant EvictedWhileFull(victims, c0.used, c0.maxCost, cost)
      invariant EvictedLeastFrequent(victims, c0.keyCosts, sampleSize, estimate)
      invariant DistinctKeys(sample) && Resident(sample, c.keyCosts) && |sample| <= sampleSize
      invariant sampleSize == 0 ==> sample == [] && victims == []
      invariant room == Costs.RoomLeft(c, cost)
      decreases |c.keyCosts|
    {
      var c1, filled, sample1, evicted, victim, _ := EvictionPass(c, sample, sampleSize, incHits, estimate);
      if !evicted {
        if Costs.Valid(c0) && sampleSize > 0 {
          RefusalWitness(c, cost, sampleSize, filled, incHits, estimate);
        }
        return c, victims, false;
      }
      ChosenStep(victims, victim, c0.keyCosts, sampleSize, estimate);
      EvictStep(c0, c, victims, victim, incHits, estimate);
      EvictWhileFullStep(victims, victim, c0.used, c0.maxCost, cost);
      c, sample := c1, sample1;
      victims := victims + [victim];
      room := Costs.RoomLeft(c, cost);
    }
    c := Costs.Add(c, key, cost);
    accepted := true;
  }

  /**
    Decides whether the item (key, cost) is admitted, evicting victims to make
    room. An oversized item is refused; a resident key only has its cost
    updated and is not an admission; an item that fits is admitted directly.
    Otherwise each pass tops up the candidate sample, finds its first
    minimum-estimate candidate, and either refuses the item (returning the
    victims evicted so far, which are gone from the tracker all the same) or
    evicts that candidate; once the item fits it is admitted.
   */
  method Add(p: LfuPolicy, key: Key, cost: int, estimate: Key -> int)
    returns (p': LfuPolicy, victims: seq<Victim>, accepted: bool)
    requires forall k: Key :: estimate(k) < MaxInt64
    // Only the resident entries and the cost in use can change.
    ensures p'.sampleSize == p.sampleSize && p'.queue == p.queue && p'.isClosed == p.isClosed
    ensures MaxCost(p') == MaxCost(p)
    // An item larger than the whole cache is refused outright.
    ensures cost > MaxCost(p) ==> p' == p && victims == [] && !accepted
    // A resident key is updated in place and not counted as an admission.
    ensures cost <= MaxCost(p) && Has(p, key) ==>
      && victims == [] && !accepted
      && p'.costs.keyCosts == p.costs.keyCosts[key := cost]
      && Cap(p') == Cap(p) + p.costs.keyCosts[key] - cost
    // An absent key that fits is admitted without eviction.
    ensures cost <= MaxCost(p) && !Has(p, key) && cost <= Cap(p) ==>
      && victims == [] && accepted
      && p'.costs.keyCosts == p.costs.keyCosts[key := cost]
      && Cap(p') == Cap(p) - cost
    // Victims were resident with the recorded cost, are distinct, are gone, and were no more valuable.
    ensures forall i :: 0 <= i < |victims| ==>
      && victims[i].key in p.costs.keyCosts
      && victims[i].cost == p.costs.keyCosts[victims[i].key]
      && victims[i].conflict == 0
      && !Has(p', victims[i].key)
      && estimate(victims[i].key) <= estimate(key)
    ensures DistinctVictims(victims)
    // For a new key: victims leave, the key arrives iff accepted, and the accounting follows.
    ensures !Has(p, key) ==>
      p'.costs.keyCosts ==
        if accepted then (p.costs.keyCosts - VictimKeys(victims))[key := cost]
        else p.costs.keyCosts - VictimKeys(victims)
    ensures !Has(p, key) ==>
      p'.costs.used == p.costs.used - VictimCost(victims) + (if accepted then cost else 0)
    // Admission leaves the key resident with its cost and the cache within capacity.
    ensures accepted ==> !Has(p, key) && Has(p', key) && p'.costs.keyCosts[key] == cost
    ensures accepted ==> p'.costs.used <= MaxCost(p')
    // Eviction stops as soon as the item fits: every victim went while it did not, and a refusal leaves it not fitting.
    ensures EvictedWhileFull(victims, p.costs.used, MaxCost(p), cost)
    ensures cost <= MaxCost(p) && !Has(p, key) && !accepted ==> p'.costs.used + cost > MaxCost(p')
    ensures !accepted ==> (Has(p', key) <==> Has(p, key))
    // The LFU choice: each victim was least estimated in a sample of the keys then resident,
    // and a refusal of a new key that fits the ceiling saw a sample of only higher estimates.
    ensures EvictedLeastFrequent(victims, p.costs.keyCosts, p.sampleSize, estimate)
    ensures cost <= MaxCost(p) && !Has(p, key) && !accepted ==>
      OutrankedBySample(p'.costs.keyCosts, p.sampleSize, estimate(key), estimate)
    // With an empty sample nothing can ever be evicted.
    ensures p.sampleSize == 0 && !Has(p, key) && cost > Cap(p) ==> victims == [] && !accepted
    // A refusal after sampling is justified by a resident key estimated strictly higher.
    ensures Costs.Valid(p.costs) && p.sampleSize > 0 && cost <= MaxCost(p) && !Has(p, key) && !accepted ==>
      exists k :: k in p'.costs.keyCosts && estimate(k) > estimate(key)
    ensures Costs.Valid(p.costs) ==> Costs.Valid(p'.costs)
  {
    var c := p.costs;
    if cost > Costs.GetMaxCost(c) {
      return p, [], false;
    }
    var updated := Costs.UpdateIfHas(c, key, cost);
    if updated.1 {
      return p.(costs := updated.0), [], false;
    }
    var room := Costs.RoomLeft(c, cost);
    if room >= 0 {
      return p.(costs := Costs.Add(c, key, cost)), [], true;
    }

    var c1;
    c1, victims, accepted := Evict(c, key, cost, p.sampleSize, estimate);
    p' := p.(costs := c1);
  }
}

=== FILE: scenarios.dfy ===
/**
  Concrete runs of the policy, each derived from the operations' contracts
  alone: they hold for every estimator consistent with the stated ordering
  of estimates and for every sampling order.
 */
module Scenarios {
  import opened Types
  import opened Policy
  import Costs

  /**
    Capacity 10: key 1 with cost 6 is admitted directly; key 2 with cost 6
    does not fit, and when it is estimated at least as high as key 1 it
    evicts key 1 and is admitted, leaving 6 in use.
   */
  method EvictionScenario(estimate: Key -> int)
    returns (first: bool, victims: seq<Victim>, accepted: bool, used: int)
    requires forall k: Key :: estimate(k) < MaxInt64
    requires estimate(1) <= estimate(2)
    ensures first && victims == [Victim(1, 0, 6)] && accepted && used == 6
  {
    var p0 := NewPolicy(10);
    var p1, v1;
    p1, v1, first := Add(p0, 1, 6, estimate);
    assert p1.costs.keyCosts == map[1 := 6];
    var p2;
    p2, victims, accepted := Add(p1, 2, 6, estimate);
    if !accepted {
      assert false;
    }
    if |victims| == 0 {
      assert false;
    }
    if |victims| > 1 {
      assert false;
    }
    assert victims[0].key in p1.costs.keyCosts;
    assert victims == [Victim(1, 0, 6)];
    assert VictimCost(victims) == 6 by {
      assert victims[..0] == [];
    }
    used := p2.costs.used;
  }

  /**
    Same start, but key 2 is estimated strictly below key 1: the only
    candidate is worth more, so nothing is evicted and key 2 is refused.
   */
  method RefusalScenario(estimate: Key -> int)
    returns (victims: seq<Victim>, accepted: bool, used: int, kept: bool)
    requires forall k: Key :: estimate(k) < MaxInt64
    requires estimate(2) < estimate(1)
    ensures victims == [] && !accepted && used == 6 && kept
  {
    var p0 := NewPolicy(10);
    var p1, v1, a1 := Add(p0, 1, 6, estimate);
    assert p1.costs.keyCosts == map[1 := 6];
    var p2;
    p2, victims, accepted := Add(p1, 2, 6, estimate);
    if |victims| > 0 {
      assert false;
    }
    assert VictimKeys(victims) == {};
    used := p2.costs.used;
    kept := Has(p2, 1);
  }

  /** Capacity 10: an item of cost 15 can never fit and is refused with nothing used. */
  method OversizedScenario(estimate: Key -> int)
    returns (victims: seq<Victim>, accepted: bool, used: int)
    requires forall k: Key :: estimate(k) < MaxInt64
    ensures victims == [] && !accepted && used == 0
  {
    var p0 := NewPolicy(10);
    var p1;
    p1, victims, accepted := Add(p0, 1, 15, estimate);
    used := p1.costs.used;
  }

  /**
    Adding a resident key again is an update, not an admission: the second
    call is refused, and the key keeps its new cost with `used` moved by
    exactly the delta. `Update` does the same without the admission check.
   */
  method ReAddScenario(estimate: Key -> int)
    returns (accepted: bool, cost: int, used: int, updatedUsed: int, stillHas: bool)
    requires forall k: Key :: estimate(k) < MaxInt64
    ensures !accepted && cost == 3 && used == 3
    ensures updatedUsed == 8 && stillHas
  {
    var p0 := NewPolicy(10);
    var p1, v1, a1 := Add(p0, 1, 6, estimate);
    var p2, v2;
    p2, v2, accepted := Add(p1, 1, 3, estimate);
    cost := Cost(p2, 1);
    used := p2.costs.used;
    var p3, v3, a3 := Add(p0, 1, 5, estimate);
    var p4 := Update(p3, 1, 8);
    updatedUsed := p4.costs.used;
    stillHas := Has(p4, 1);
  }

  /** A fresh policy with capacity `maxCost` into which two keys that fit together are admitted directly. */
  method AdmitTwo(maxCost: int, k1: Key, c1: int, k2: Key, c2: int, estimate: Key -> int) returns (p: LfuPolicy)
    requires forall k: Key :: estimate(k) < MaxInt64
    requires k1 != k2 && 0 <= c1 && 0 <= c2 && c1 + c2 <= maxCost
    ensures p.costs.keyCosts == map[k1 := c1, k2 := c2] && p.costs.used == c1 + c2
    ensures MaxCost(p) == maxCost && p.sampleSize == LfuSampleSize
  {
    var p0 := NewPolicy(maxCost);
    var p1, v1, a1 := Add(p0, k1, c1, estimate);
    var v2, a2;
    p, v2, a2 := Add(p1, k2, c2, estimate);
  }

  /**
    Capacity 10 with keys 1 and 3 resident at cost 2 each, all estimates
    equal: adding key 2 with cost 7 evicts exactly one of them (room is then
    1) and admits key 2; eviction does not continue once the item fits.
   */
  method StopOnceFitsScenario(estimate: Key -> int)
    returns (victims: seq<Victim>, accepted: bool, used: int)
    requires forall k: Key :: estimate(k) == 0
    ensures accepted && |victims| == 1 && used == 9
    ensures victims[0].key in {1, 3} && victims[0].cost == 2
  {
    var p2 := AdmitTwo(10, 1, 2, 3, 2, estimate);
    var p3;
    p3, victims, accepted := Add(p2, 2, 7, estimate);
    used := p3.costs.used;
    StopOnceFitsOutcome(p2.costs.keyCosts, victims, accepted, used, p3.costs.keyCosts, estimate);
  }

  /** What `Add`'s contract leaves for the third call of `StopOnceFitsScenario`. */
  lemma {:induction false} StopOnceFitsOutcome(m: map<Key, int>, victims: seq<Victim>, accepted: bool, used: int,
                                               after: map<Key, int>, estimate: Key -> int)
    requires m == map[1 := 2, 3 := 2]
    requires estimate(1) == 0 && estimate(2) == 0 && estimate(3) == 0
    requires forall i :: 0 <= i < |victims| ==> victims[i].key in m && victims[i].cost == m[victims[i].key]
    requires EvictedWhileFull(victims, 4, 10, 7)
    requires used == 4 - VictimCost(victims) + (if accepted then 7 else 0)
    requires accepted ==> used <= 10
    requires !accepted ==> used + 7 > 10 && after == m - VictimKeys(victims)
    requires !accepted ==> OutrankedBySample(after, LfuSampleSize, estimate(2), estimate)
    ensures accepted && |victims| == 1 && used == 9
    ensures victims[0].key in {1, 3} && victims[0].cost == 2
  {
    FirstVictimCost(victims);
    if |victims| == 0 {
      if !accepted {
        OnlySamplesOfTwo(m, 0, estimate);
      }
      assert false;
    }
    if |victims| > 1 {
      assert false;
    }
    assert victims[..0] == [];
  }

  /**
    Capacity 12 with key 1 (cost 6, estimated 0) and key 3 (cost 6,
    estimated 1) resident: adding key 2 with cost 6, estimated 5, must sample
    both keys, so it evicts the less frequent key 1 and is admitted.
   */
  method LeastFrequentScenario(estimate: Key -> int)
    returns (victims: seq<Victim>, accepted: bool, used: int)
    requires forall k: Key :: estimate(k) < MaxInt64
    requires estimate(1) == 0 && estimate(3) == 1 && estimate(2) == 5
    ensures victims == [Victim(1, 0, 6)] && accepted && used == 12
  {
    var p2 := AdmitTwo(12, 1, 6, 3, 6, estimate);
    var p3;
    p3, victims, accepted := Add(p2, 2, 6, estimate);
    used := p3.costs.used;
    LeastFrequentOutcome(p2.costs.keyCosts, victims, accepted, used, p3.costs.keyCosts, estimate);
  }

  /** What `Add`'s contract leaves for the third call of `LeastFrequentScenario`. */
  lemma {:induction false} LeastFrequentOutcome(m: map<Key, int>, victims: seq<Victim>, accepted: bool, used: int,
                                                after: map<Key, int>, estimate: Key -> int)
    requires m == map[1 := 6, 3 := 6]
    requires estimate(1) == 0 && estimate(3) == 1 && estimate(2) == 5
    requires forall i :: 0 <= i < |victims| ==>
      && victims[i].key in m && victims[i].cost == m[victims[i].key] && victims[i].conflict == 0
    requires EvictedLeastFrequent(victims, m, LfuSampleSize, estimate)
    requires EvictedWhileFull(victims, 12, 12, 6)
    requires used == 12 - VictimCost(victims) + (if accepted then 6 else 0)
    requires accepted ==> used <= 12
    requires !accepted ==> used + 6 > 12 && after == m - VictimKeys(victims)
    requires !accepted ==> OutrankedBySample(after, LfuSampleSize, estimate(2), estimate)
    ensures victims == [Victim(1, 0, 6)] && accepted && used == 12
  {
    if |victims| == 0 && !accepted {
      OnlySamplesOfTwo(m, 5, estimate);
    }
    if |victims| == 0 {
      assert false;
    }
    assert victims[..0] == [] && m - VictimKeys(victims[..0]) == m;
    FirstChoiceOfTwo(victims[0], m, estimate);
    FirstVictimCost(victims);
    if |victims| > 1 {
      assert false;
    }
    assert victims == [Victim(1, 0, 6)];
  }

  /**
    Capacity 10 with key 1 (cost 6, estimated 5) and key 3 (cost 3,
    estimated 0) resident: adding key 2 with cost 6, estimated 2, evicts the
    less frequent key 3, then meets key 1 and is refused; key 3 stays evicted.
   */
  method EvictThenRefuseScenario(estimate: Key -> int)
    returns (victims: seq<Victim>, accepted: bool, used: int, kept: bool)
    requires forall k: Key :: estimate(k) < MaxInt64
    requires estimate(1) == 5 && estimate(3) == 0 && estimate(2) == 2
    ensures victims == [Victim(3, 0, 3)] && !accepted && used == 6 && kept
  {
    var p2 := AdmitTwo(10, 1, 6, 3, 3, estimate);
    var p3;
    p3, victims, accepted := Add(p2, 2, 6, estimate);
    used := p3.costs.used;
    kept := Has(p3, 1);
    EvictThenRefuseOutcome(p2.costs.keyCosts, victims, accepted, used, p3.costs.keyCosts, estimate);
  }

  /** What `Add`'s contract leaves for the third call of `EvictThenRefuseScenario`. */
  lemma {:induction false} EvictThenRefuseOutcome(m: map<Key, int>, victims: seq<Victim>, accepted: bool, used: int,
                                                  after: map<Key, int>, estimate: Key -> int)
    requires m == map[1 := 6, 3 := 3]
    requires estimate(1) == 5 && estimate(3) == 0 && estimate(2) == 2
    requires forall i :: 0 <= i < |victims| ==>
      && victims[i].key in m && victims[i].cost == m[victims[i].key] && victims[i].conflict == 0
      && estimate(victims[i].key) <= estimate(2)
    requires DistinctVictims(victims)
    requires EvictedLeastFrequent(victims, m, LfuSampleSize, estimate)
    requires used == 9 - VictimCost(victims) + (if accepted then 6 else 0)
    requires accepted ==> used <= 10
    requires !accepted ==> used + 6 > 10
    requires after == if accepted then (m - VictimKeys(victims))[2 := 6] else m - VictimKeys(victims)
    requires !accepted ==> OutrankedBySample(after, LfuSampleSize, estimate(2), estimate)
    ensures victims == [Victim(3, 0, 3)] && !accepted && used == 6 && 1 in after
  {
    if |victims| == 0 {
      if !accepted {
        OnlySamplesOfTwo(m, 2, estimate);
      }
      assert false;
    }
    assert victims[..0] == [] && m - VictimKeys(victims[..0]) == m;
    FirstChoiceOfTwo(victims[0], m, estimate);
    if |victims| > 1 {
      assert false;
    }
    assert victims == [Victim(3, 0, 3)];
    assert VictimKeys(victims) == {3};
  }

  /**
    With keys 1 and 3 resident and a sample size of 5, every possible sample
    holds both keys, so none is estimated entirely above `incHits` when one of
    them is estimated at most `incHits`.
   */
  lemma {:induction false} OnlySamplesOfTwo(m: map<Key, int>, incHits: int, estimate: Key -> int)
    requires m.Keys == {1, 3}
    requires estimate(1) <= incHits || estimate(3) <= incHits
    ensures !OutrankedBySample(m, 5, incHits, estimate)
  {
    if OutrankedBySample(m, 5, incHits, estimate) {
      var s: seq<Pair> :| SampleOf(s, m, 5) && forall i :: 0 <= i < |s| ==> incHits < estimate(s[i].key);
      CoversBoth(s, m);
      assert false;
    }
  }

  /** With keys 1 and 3 resident and a sample size of 5, a victim is the less frequent key. */
  lemma {:induction false} FirstChoiceOfTwo(v: Victim, m: map<Key, int>, estimate: Key -> int)
    requires m.Keys == {1, 3} && estimate(1) != estimate(3)
    requires ChosenFromSample(v, m, 5, estimate)
    ensures v.key == (if estimate(1) < estimate(3) then 1 else 3) && v.cost == m[v.key]
  {
    var s: seq<Pair> :| SampleOf(s, m, 5) && Pair(v.key, v.cost) in s &&
      forall i :: 0 <= i < |s| ==> estimate(v.key) <= estimate(s[i].key);
    CoversBoth(s, m);
    var j :| 0 <= j < |s| && s[j] == Pair(v.key, v.cost);
    var i1 :| 0 <= i1 < |s| && s[i1].key == 1;
    var i3 :| 0 <= i3 < |s| && s[i3].key == 3;
  }

  /** A sample of size at most 5 over keys 1 and 3 holds both keys. */
  lemma {:induction false} CoversBoth(s: seq<Pair>, m: map<Key, int>)
    requires m.Keys == {1, 3} && SampleOf(s, m, 5)
    ensures 1 in SampleKeys(s) && 3 in SampleKeys(s)
  {
    SampleWithinResidents(s, m);
    assert |m.Keys| == 2;
  }
}

=== FILE: types.dfy ===
/**
  Shared vocabulary of the LFU policy model: hashed keys, the 64-bit
  integer bounds the policy relies on, and the (key, cost) pairs that make
  up an eviction sample.
 */
module Types {

  /** Largest signed 64-bit integer; the policy's "no minimum found yet" value. */
  const MaxInt64: int := 0x7FFF_FFFF_FFFF_FFFF

  /** A key is an already-hashed unsigned 64-bit identifier. */
  type Key = k: int | 0 <= k < 0x1_0000_0000_0000_0000

  /** An eviction candidate: a resident key with the cost it had when sampled. */
  datatype Pair = Pair(key: Key, cost: int)

  /** The keys a sample holds. */
  function SampleKeys(s: seq<Pair>): set<Key>
  {
    set i | 0 <= i < |s| :: s[i].key
  }

  /** No key occurs twice in the sample. */
  predicate DistinctKeys(s: seq<Pair>)
  {
    forall i, j :: 0 <= i < j < |s| ==> s[i].key != s[j].key
  }

  /** Every pair of the sample names a resident key with its current cost. */
  predicate Resident(s: seq<Pair>, m: map<Key, int>)
  {
    forall i :: 0 <= i < |s| ==> s[i].key in m && m[s[i].key] == s[i].cost
  }

  /** Appending a pair adds exactly its key. */
  lemma SampleKeysAppend(s: seq<Pair>, x: Pair)
    ensures SampleKeys(s + [x]) == SampleKeys(s) + {x.key}
  {
    var t := s + [x];
    assert t[|s|] == x;
    forall i | 0 <= i < |s| ensures t[i] == s[i] {}
  }

  /** Appending a resident pair whose key is not sampled yet keeps the sample well formed. */
  lemma AppendFresh(s: seq<Pair>, x: Pair, m: map<Key, int>)
    requires DistinctKeys(s) && Resident(s, m)
    requires x.key !in SampleKeys(s) && x.key in m && m[x.key] == x.cost
    ensures DistinctKeys(s + [x]) && Resident(s + [x], m)
    ensures SampleKeys(s + [x]) == SampleKeys(s) + {x.key}
  {
    SampleKeysAppend(s, x);
    var t := s + [x];
    forall i, j | 0 <= i < j < |t| ensures t[i].key != t[j].key
    {
      assert t[i] == s[i];
      if j == |s| {
        assert s[i].key in SampleKeys(s);
      } else {
        assert t[j] == s[j];
      }
    }
  }

  /** A sample of distinct resident keys is no larger than the set of residents. */
  lemma {:induction false} SampleWithinResidents(s: seq<Pair>, m: map<Key, int>)
    requires DistinctKeys(s) && Resident(s, m)
    ensures |SampleKeys(s)| == |s| && SampleKeys(s) <= m.Keys && |s| <= |m|
  {
    if s != [] {
      var t := s[..|s| - 1];
      var x := s[|s| - 1];
      assert s == t + [x];
      assert DistinctKeys(t) && Resident(t, m);
      SampleWithinResidents(t, m);
      assert x.key !in SampleKeys(t);
      SampleKeysAppend(t, x);
      SubsetCardinality(SampleKeys(s), m.Keys);
    }
  }

  /** A subset is no larger than its superset. */
  lemma {:induction false} SubsetCardinality(a: set<Key>, b: set<Key>)
    requires a <= b
    ensures |a| <= |b|
    decreases a
  {
    if a != {} {
      var x :| x in a;
      SubsetCardinality(a - {x}, b - {x});
    }
  }
}
